=== FILE: README.md ===
# YouTube downloader core in Dafny

This project models the core of a small Flask media downloader. Downloads run
as asynchronous jobs. The application keeps a table of task records and a
FIFO queue of task ids. Four operations act on them:

- `/download` submits a job;
- `/status/<id>` polls it;
- `/file/<id>` retrieves the finished artifact once and then forgets the task;
- a background worker takes the queue head, fetches the media and records
  either the result path or a classified error.

Around that core sit these pure decision functions, which are modelled too:

- the error classifier `get_simple_error`;
- the mode → fetch-option dispatch shared by the worker and the synchronous
  `/download` endpoint of downloads.py;
- the "non-hidden produced files" filter and the naming of result paths;
- the metadata summary behind `/info` (info.py, duplicated in app.py).

Each operation is a pure function on immutable values:

- the whole job state is one `State(tasks, queue)`;
- the media fetcher's outcome is an input, not a call: an exception text, or
  the listing of the scratch directory;
- the fresh task id and the scratch-directory name are parameters.

Modules:

- `Optional`: the `Option` type.
- `Text`: these Python behaviours:
  - `in` on strings;
  - truthiness of a request field;
  - `startswith('.')`;
  - `os.path.join`;
  - `os.path.basename`.
- `Classifier`: `get_simple_error`, and its equivalence with a first-match
  search over a rule table.
- `FetchPlan`: the options for each mode, submode and format selector.
- `Jobs`: the task state and its four transitions.
- `JobTheorems`: facts that span several operations:
  - the state invariant;
  - monotonic status;
  - FIFO order;
  - one-shot retrieval;
  - the cleanup defect.
- `Cleanup`: the file removal after a retrieval, as written and corrected.
- `Downloads`: the synchronous endpoint of downloads.py.
- `Info`: the metadata summary.

Two behaviours of the code are easy to misread:

- The collection mode is the literal string `playlist`, and the collection's
  audio/video choice is read from the field `submode`. A job submitted with
  any other mode string, `collection` included, is a single video download
  (`FetchPlan.UnknownModeIsVideo`).
- The worker loop does not survive every task. The lookup `tasks[task_id]`
  (app.py:188) and the status write before the `try` are outside the error
  handling, so a queued id missing from the table would end the worker thread.
  The model therefore makes "the head is in the table" a precondition of a
  worker step. `JobTheorems.QueuedHeadIsKnown` shows that every valid state
  meets it. A failing `rmtree(tmpdir)` inside the `except` handler
  (app.py:280-281) would end the thread too: the `finally` only calls
  `task_done`, so the exception escapes the loop and leaves the task
  `processing`. The model treats that removal as always succeeding.

## Model

| member | source | states |
|---|---|---|
| Text.Contains | app.py:31 | the empty pattern is always found, and a pattern longer than the text never is |
| Text.ContainsIff | app.py:31-56 | Python's substring test `p in s` holds exactly when `p` occurs at some position of `s` |
| Text.Hidden | app.py:265 | a name is hidden exactly when it starts with "." (the prefix test of `startswith`) |
| Text.Visible | app.py:265 | the produced files are listing names that do not start with '.'; every such name of the listing is among them |
| Text.VisibleAppend | app.py:265 | the filter keeps listing order: filtering a concatenation is concatenating the filtered parts |
| Text.VisibleFirst | app.py:265-269 | the first produced file is the first listed name that is not hidden, and every name before it is hidden |
| Text.Basename | app.py:163 | `basename` contains no '/' and is no longer than the path |
| Text.BasenameIsLastComponent | app.py:163 | `basename` is the suffix of the path after its last '/': preceded by '/' unless it is the whole path |
| Text.BasenameAppend | downloads.py:56-57 | appending a '/'-free suffix such as ".zip" appends it to the base name |
| Text.JoinPath | app.py:269-272 | `join(dir, name)` ends with `name`; an absolute name discards `dir`; otherwise it is `dir`, then a single '/' exactly when `dir` is non-empty and does not already end in '/', then `name` |
| Text.BasenameOfJoin | app.py:269-272 | the base name of `join(dir, name)` is `name` for a '/'-free name |
| Classifier.SimpleErrorIsFirstMatch | app.py:29-58 | the classifier equals first-match over the ordered table of thirteen (pattern, message) rules, with the generic message as fallback |
| Classifier.FirstMatchHit | app.py:29-58 | in the rule table, the first rule whose pattern occurs decides the message |
| Classifier.FirstMatchMiss | app.py:57-58 | the generic message comes out exactly when no pattern of the table occurs |
| Classifier.FirstMatchRange | app.py:29-58 | first-match returns a rule's message or the generic one |
| Classifier.FirstHitWins | app.py:29-58 | if pattern i occurs and no earlier pattern does, the classifier answers rule i's message |
| Classifier.GenericIffNoHit | app.py:57-58 | the classifier answers "An error occurred while processing your request." iff none of the thirteen patterns occurs |
| Classifier.SimpleErrorInMessages | app.py:29-58 | the classifier only ever answers one of its fourteen fixed messages |
| Classifier.PrivateBeforeRateLimit | app.py:31-54 | a text containing both "Private video" and "HTTP Error 429" is classified as a private video |
| Classifier.NoEarlyPattern | app.py:31-54 | a text without the letters P, V, m, a, L and H matches none of the first twelve patterns |
| Classifier.NoFileProducedClassified | app.py:55-56 | such a text containing "no file produced" reads "Download failed." |
| Classifier.NoFileProducedMessage | app.py:55-56 | the worker's own "no file produced" failure reads "Download failed." |
| FetchPlan.BranchOf | app.py:201-237 | only mode "playlist" takes the archive branch and only mode "audio" the single-audio branch |
| FetchPlan.SelectOptions | app.py:201-260 | options per mode: the template; which modes ignore item errors and which refuse playlists; mp3/192 extraction from best audio exactly for audio jobs and audio collections; otherwise an mp4 merge; the format selector replaces the default only for single video and only when truthy |
| FetchPlan.FormatIdOnlyForVideo | app.py:237-260 | the format selector has no effect on audio jobs or collections |
| FetchPlan.SubmodeOnlyForCollections | app.py:209-223 | the submode has no effect outside collections |
| FetchPlan.UnknownModeIsVideo | app.py:250-258 | any mode string other than "playlist" and "audio" (such as "collection") downloads single video |
| Jobs.Submit | app.py:123-144 | a falsy url answers 400 "missing url" and changes nothing; otherwise answers 200 with the fresh id, adds exactly that pending record (mode and submode default to "video", the format selector stored as given, no result or error), appends the id to the queue and leaves every other record alone |
| Jobs.StatusOf | app.py:146-154 | 404 "task not found" exactly for an unknown id; otherwise 200 with that record's status and error |
| Jobs.Retrieve | app.py:156-182 | an unknown or not completed task answers 404 "file not available" and changes nothing; success exactly for a completed task with a result; it sends the result under its base name and deletes only that record; any failure leaves the state unchanged |
| Jobs.RetrieveEffects | app.py:165-176 | only a served retrieval removes files; it then removes what the corrected cleanup removes |
| Jobs.RunPipeline | app.py:192-277 | a fetch exception becomes the error text; a collection yields the archive path; a single job with no produced file yields "no file produced"; otherwise it yields the storage root joined with the first produced file |
| Jobs.Resolve | app.py:189-283 | a finished task is completed with the result path exactly when the pipeline succeeded; otherwise it is failed with the classified error; identity fields never change |
| Jobs.WorkerStep | app.py:185-285 | a step removes exactly the queue head, keeps the set of ids, changes no record but the head's, and resolves the head |
| Jobs.WorkerOptions | app.py:193-260 | the worker's fetch options for the head task write into its scratch directory under the storage root; its format selector counts for single video when truthy; audio extraction exactly for audio jobs and audio collections |
| Jobs.ArchivePath | app.py:228-229 | appending ".zip" to the joined archive base equals joining the storage root with the whole archive name |
| Jobs.SingleResultNamedAfterFirstFile | app.py:265-272 | a single job succeeds iff the listing has a name not starting with '.'; its result is named after the first such name |
| Jobs.ArchiveNamedAfterScratch | app.py:228-229 | the archive is named "playlist-" + scratch name + ".zip" |
| Jobs.ArchiveName | app.py:228-229 | that archive name has no '/' and ends in ".zip" |
| Jobs.ResultsLiveInStorageRoot | app.py:228-277 | every result path the worker records lies directly in the storage root |
| Cleanup.StripSlashes | app.py:174 | trailing-slash removal yields a prefix that does not end in '/', and everything it dropped was '/' |
| Cleanup.DirName | app.py:174 | `dirname(p)` is the part of `p` before the base name with trailing '/' stripped, unless that part consists of '/' only, in which case it is kept whole |
| Cleanup.EndsWithIsSuffix | app.py:173 | `endswith(suffix)` holds exactly when the name is some string followed by `suffix` |
| Cleanup.DirNameOfJoin | app.py:174 | `dirname(join(dir, name))` is `dir` for a '/'-free name |
| Cleanup.CleanupAsWritten | app.py:171-176 | the cleanup ends by removing the served file; exactly when the base name ends in ".zip" it first removes the whole tree `dirname(filepath)`, and otherwise it removes the served file alone |
| Cleanup.ArchiveCleanupRemovesItsDirectory | app.py:173-175 | as written, cleaning up after an archive `dir/name` removes the whole of `dir` |
| Cleanup.CleanupCorrected | app.py:176 | the corrected cleanup removes the served file and nothing else |
| Cleanup.CorrectedCleanupSparesOtherResults | app.py:176 | the corrected cleanup removes no directory and no other file |
| JobTheorems.EmptyIsValid | app.py:17-18 | the empty table and queue satisfy the invariant |
| JobTheorems.QueuedHeadIsKnown | app.py:187-188 | in a valid state the worker's lookup of the queue head succeeds |
| JobTheorems.SubmitKeepsValid | app.py:130-142 | submission preserves the invariant (own-id keys, result iff completed, error iff failed, the queue holds exactly the pending ids, once each) |
| JobTheorems.RetrieveKeepsValid | app.py:168-169 | retrieval preserves the invariant |
| JobTheorems.ResolveKeepsWellFormed | app.py:189-283 | finishing a pending task sets a result exactly on completion and an error exactly on failure, and the task is no longer pending |
| JobTheorems.FinishHeadKeepsValid | app.py:185-189 | dropping the queue head and finishing only that task, leaving all others, preserves the invariant |
| JobTheorems.WorkerStepKeepsValid | app.py:185-285 | a worker step preserves the invariant |
| JobTheorems.ApplyKeepsValid | app.py:123-285 | every operation preserves the invariant |
| JobTheorems.ReplayKeepsValid | app.py:123-285 | every sequence of operations preserves the invariant |
| JobTheorems.WorkerFinishesHead | app.py:187-283 | the worker takes a pending task and leaves it completed or failed, well formed, and gone from the queue |
| JobTheorems.ApplyAdvances | app.py:189-283 | no operation moves a task's status backwards or changes a finished task |
| JobTheorems.ReplayAdvances | app.py:123-285 | over any run, a task present at the end was present at the start (unless submitted during the run) and has only advanced |
| JobTheorems.ApplyQueue | app.py:142-187 | one operation takes at most the head off the queue and appends at most the submitted id |
| JobTheorems.Fifo | app.py:142-187 | over any run, the ids taken by the worker followed by the queue left over equal the initial queue followed by the submitted ids |
| JobTheorems.ProcessedInOrder | app.py:142-187 | the worker processes tasks in the order they were queued |
| JobTheorems.QueuedAndAdmittedDistinct | app.py:130-142 | with fresh ids, the ids queued at the start and those submitted later are all distinct |
| JobTheorems.ProcessedAtMostOnce | app.py:130-187 | with fresh ids, no task is processed twice |
| JobTheorems.SubmitThenStatus | app.py:137-154 | a task just submitted reports status pending and no error |
| JobTheorems.RetrieveIsOneShot | app.py:156-169 | a completed task is served once; after that, retrieval and status both answer 404 whatever else happens |
| JobTheorems.EmptyListingFails | app.py:265-283 | a single job whose listing holds only hidden files ends failed with "Download failed." and no result |
| JobTheorems.ArchiveRetrievalAsWrittenRemovesOtherResults | app.py:171-176 | as written, serving a collection's archive removes the directory holding every other task's result |
| JobTheorems.RetrievalSparesOtherResults | app.py:162-176 | with the corrected cleanup, every removal is of the served task's own result, so no task recording a different path loses its file |
| JobTheorems.SameFirstFileSameResult | app.py:236-277 | two single jobs whose listings start with the same visible name both succeed with the same result path |
| JobTheorems.SharedResultRemovedWithEither | app.py:162-176 | when two tasks record the same path, serving one removes the file the other points to |
| Downloads.Respond | downloads.py:53-95 | a fetch exception answers 500 "download failed: " + text; a collection sends `<tmpdir>.zip` under its base name; a single job with no produced file answers 500 "no file produced", otherwise it sends the first produced file under its own name |
| Downloads.Download | downloads.py:17-100 | a falsy url answers 400 before any file-system effect; otherwise the scratch directory is created first and removed last on every path, with the archive written in between exactly for a collection whose fetch succeeded; the response and fetch options follow the mode, submode (default "video") and format selector |
| Downloads.ArchiveSentUnderScratchName | downloads.py:56-57 | a collection is sent as `tmpdir + ".zip"` under the scratch directory's base name plus ".zip" |
| Downloads.EndpointAndWorkerAgree | downloads.py:20-82 | a request submitted to an idle queue reaches the worker's fetcher with the same job-specific options (format, template, merge, postprocessing, error and playlist flags) that the synchronous endpoint uses in the same scratch directory |
| Downloads.SingleSentUnderOwnName | downloads.py:87-92 | a single download is sent under the name of the first listed non-hidden file |
| Info.Or | info.py:122 | Python's `a or b`: `a` unless it is falsy, else `b` |
| Info.SummarizeEntry | info.py:76-86 | an entry record copies the entry's id, title, duration and thumbnail, a missing key reading as null |
| Info.Compact | info.py:70-86 | skipping entries never yields more records than there are entries |
| Info.CompactContents | info.py:70-86 | skipping null and empty entries: every summary comes from a kept entry, every kept entry is summarized, and the result is empty iff nothing is kept |
| Info.CompactAppend | info.py:70-86 | skipping keeps order: compacting a concatenation concatenates the compacted parts |
| Info.FirstTen | info.py:70 | `entries[:10]` has min(length, 10) elements, the leading ones |
| Info.Sample | info.py:68-86 | the sample has at most ten records; each summarizes a kept entry among the first ten, each such entry is sampled, and it is empty iff none of the first ten is kept |
| Info.SummarizeFormat | info.py:112-128 | `filesize` is the exact size when truthy, otherwise the approximate size; format id, extension, codecs, height and bitrate are copied |
| Info.SummarizeFormats | info.py:108-128 | one format record per input format, in the same order |
| Info.Summarize | info.py:62-146 | a playlist summary exactly when the metadata has entries; the total counts every entry; the sample and formats are as above; id, title, uploader and thumbnail are copied |
| Info.GetInfo | info.py:38-58 | a falsy url answers 400 "missing url"; a probe failure answers 400 with the raw exception text; otherwise the summary |
| Info.AppInfo | app.py:64-77 | like `GetInfo`, but a probe failure answers 400 with the classified message |
| Info.SampleIgnoresTail | info.py:70 | entries after the tenth never reach the sample |
| Info.SampleKeepsOrder | info.py:70-86 | the sample keeps the kept entries among the first ten in their original order |
| Info.NullEntriesCountedNotSampled | info.py:72-100 | null entries are skipped by the sample but counted in the total |
| Info.ZeroSizeFallsBack | info.py:122 | a file size of 0 counts as missing, and the approximate size is reported |
| Info.AppInfoClassifiesProbeErrors | app.py:75-77 | the two `/info` handlers agree except on a failed probe, where app.py classifies the text that info.py passes through raw |

## Left out

- Flask transport is not modelled: routing, JSON parsing and serialisation, `send_file`, `render_template`, the index route and the `after_this_request` plumbing. A response is a status code and a body value.
- Request fields are modelled as present-or-absent strings. A JSON `null` or a non-string value for `url`, `mode`, `submode` or `format_id` is not modelled.
- Metadata values are a small scalar type. Nested values other than the entry and format lists are not modelled.
- The media fetcher (`YoutubeDL.extract_info`) is a foreign library. Its outcome is an input: an exception text, or the resulting directory listing and metadata.
- The archive step's own failure (`make_archive`) appears only as a fetch failure with some text.
- File-system operations are not executed: `mkdtemp`, `make_archive`, `move`, `rmtree` and `remove`.
- `Downloads.Download` and `Cleanup` record the file-system operations as effect lists. The worker's own scratch-directory removal is not recorded.
- A failing `mkdtemp` in downloads.py (line 27, outside the `try`) is not modelled.
- The `.zip` that downloads.py writes next to its scratch directory is never removed by that handler. It is not among the modelled effects.
- Threading is not modelled: the daemon worker thread, the blocking `task_queue.get` and `task_done`. A worker step is atomic and needs a non-empty queue.
- The brief window in which a task reads `completed` before its `result` is written (app.py:232-233) exists only under concurrency. A sequential model does not have it.
- `uuid4` is not modelled. The new id is a parameter and must be fresh.
- Configuration is not modelled: the cookie file, `BASE_DIR`, the ffmpeg location, the `quiet`/`no_warnings` options, `force_generic_extractor` and `os.makedirs`.
- The home directory in the storage root is written symbolically as "~".
- `Text.JoinPath` models `os.path.join` for two components only.
- test_downloads.py imports a function that downloads.py does not define. It is not used as evidence.
- JobTheorems.RetrievalSparesOtherResults: spares only tasks whose result path differs from the served one. Single jobs are saved as `<id>.<ext>` and moved to the storage root, so two jobs for the same media record the same path (`JobTheorems.SameFirstFileSameResult`). The second move overwrites the first file, and serving either task removes the file the other still points to (`JobTheorems.SharedResultRemovedWithEither`).
- Jobs.Retrieve: a completed task without a result path answers 500. That state is unreachable under the invariant, and the code reaches it only through an exception in `basename(None)`.

## Findings

| source | as written | input that shows it | evidently intended | confidence | as-written member | corrected member |
|---|---|---|---|---|---|---|
| app.py:171-176 | for an archive result, the cleanup after `/file/<id>` calls `rmtree(dirname(filepath))`. The archive lives directly in the storage root, so this removes the whole storage root: every other task's finished result, every running job's scratch directory, and then the archive itself, before `os.remove` fails | retrieve a completed collection job whose result is `~/Downloads/YouTube Downloader/playlist-tmpab12.zip` while another task's result `~/Downloads/YouTube Downloader/x.mp4` waits | remove only the served archive; the worker already removed the scratch directory it was built from (app.py:230) | medium, not executed | JobTheorems.ArchiveRetrievalAsWrittenRemovesOtherResults | JobTheorems.RetrievalSparesOtherResults |

=== FILE: classifier.dfy ===
/** The error classifier `get_simple_error` of app.py: an ordered list of
    substring tests over the fetcher's error text, where the first test that
    hits picks the user-facing message. */
module Classifier {
  import opened Text

  /** One classification rule: if `pattern` occurs in the error text, the
      user sees `message`. */
  datatype Rule = Rule(pattern: string, message: string)

  /** The message shown when no rule matches. */
  const Generic: string := "An error occurred while processing your request."

  /** The rules in the order the classifier tries them. */
  const Rules: seq<Rule> := [
    Rule("Private video", "This is a private video."),
    Rule("Video unavailable", "This video is unavailable."),
    Rule("removed for violating", "This video was removed."),
    Rule("not available in your country", "This video is not available in your country."),
    Rule("age-restricted", "This video is age-restricted."),
    Rule("Login required", "This video requires login."),
    Rule("payment to watch", "This is a paid video."),
    Rule("Premiere", "This video is a premiere."),
    Rule("Live event", "This is a live event."),
    Rule("HTTP Error 404", "Video not found."),
    Rule("HTTP Error 403", "Access denied to video."),
    Rule("HTTP Error 429", "Too many requests. Please try again later."),
    Rule("no file produced", "Download failed.")
  ]

  /** The fourteen messages the classifier can return: one per rule, plus the
      generic one. */
  function Messages(): set<string> {
    (set r | r in Rules :: r.message) + {Generic}
  }

  /** `get_simple_error`, test by test, in the source's order. */
  function SimpleError(text: string): string {
    if Contains(text, "Private video") then "This is a private video."
    else if Contains(text, "Video unavailable") then "This video is unavailable."
    else if Contains(text, "removed for violating") then "This video was removed."
    else if Contains(text, "not available in your country") then "This video is not available in your country."
    else if Contains(text, "age-restricted") then "This video is age-restricted."
    else if Contains(text, "Login required") then "This video requires login."
    else if Contains(text, "payment to watch") then "This is a paid video."
    else if Contains(text, "Premiere") then "This video is a premiere."
    else if Contains(text, "Live event") then "This is a live event."
    else if Contains(text, "HTTP Error 404") then "Video not found."
    else if Contains(text, "HTTP Error 403") then "Access denied to video."
    else if Contains(text, "HTTP Error 429") then "Too many requests. Please try again later."
    else if Contains(text, "no file produced") then "Download failed."
    else Generic
  }

  /** Reference definition: the message of the first rule of `rules`, from
      index `k` on, whose pattern occurs in `text`, or the generic message. */
  function FirstMatch(rules: seq<Rule>, k: nat, text: string): string
    decreases |rules| - k
  {
    if k >= |rules| then Generic
    else if Contains(text, rules[k].pattern) then rules[k].message
    else FirstMatch(rules, k + 1, text)
  }

  /** The first hit among `rules[k..]` decides the message. */
  lemma {:induction false} FirstMatchHit(rules: seq<Rule>, k: nat, text: string, i: int)
    requires k <= i < |rules| && Contains(text, rules[i].pattern)
    requires forall j :: k <= j < i ==> !Contains(text, rules[j].pattern)
    ensures FirstMatch(rules, k, text) == rules[i].message
    decreases i - k
  {
    if k < i {
      FirstMatchHit(rules, k + 1, text, i);
    }
  }

  /** With no hit at all the generic message comes out, and (when no rule
      carries the generic message itself) only then. */
  lemma {:induction false} FirstMatchMiss(rules: seq<Rule>, k: nat, text: string)
    requires forall j :: 0 <= j < |rules| ==> rules[j].message != Generic
    ensures FirstMatch(rules, k, text) == Generic
            <==> forall j :: k <= j < |rules| ==> !Contains(text, rules[j].pattern)
    decreases |rules| - k
  {
    if k < |rules| {
      FirstMatchMiss(rules, k + 1, text);
      if !Contains(text, rules[k].pattern) {
        assert (forall j :: k <= j < |rules| ==> !Contains(text, rules[j].pattern))
               <==> (forall j :: k + 1 <= j < |rules| ==> !Contains(text, rules[j].pattern));
      }
    }
  }

  /** The result is always one of the rules' messages or the generic one. */
  lemma {:induction false} FirstMatchRange(rules: seq<Rule>, k: nat, text: string)
    ensures FirstMatch(rules, k, text) in (set r | r in rules :: r.message) + {Generic}
    decreases |rules| - k
  {
    if k < |rules| {
      assert rules[k] in rules;
      FirstMatchRange(rules, k + 1, text);
    }
  }

  /** The if-chain of the source is exactly first-match over the rule table. */
  lemma SimpleErrorIsFirstMatch(text: string)
    ensures SimpleError(text) == FirstMatch(Rules, 0, text)
  {
  }

  /** Ordered classification: the earliest rule whose pattern occurs wins. */
  lemma FirstHitWins(text: string, i: int)
    requires 0 <= i < |Rules| && Contains(text, Rules[i].pattern)
    requires forall j :: 0 <= j < i ==> !Contains(text, Rules[j].pattern)
    ensures SimpleError(text) == Rules[i].message
  {
    SimpleErrorIsFirstMatch(text);
    FirstMatchHit(Rules, 0, text, i);
  }

  /** The generic message comes out exactly when no pattern occurs. */
  lemma GenericIffNoHit(text: string)
    ensures SimpleError(text) == Generic
            <==> forall j :: 0 <= j < |Rules| ==> !Contains(text, Rules[j].pattern)
  {
    SimpleErrorIsFirstMatch(text);
    FirstMatchMiss(Rules, 0, text);
  }

  /** The classifier only ever returns one of its fourteen fixed messages. */
  lemma SimpleErrorInMessages(text: string)
    ensures SimpleError(text) in Messages()
  {
    SimpleErrorIsFirstMatch(text);
    FirstMatchRange(Rules, 0, text);
  }

  /** A private video that also hit the rate limit is reported as private. */
  lemma PrivateBeforeRateLimit(text: string)
    requires Contains(text, "Private video") && Contains(text, "HTTP Error 429")
    ensures SimpleError(text) == "This is a private video."
  {
  }

  /** A text lacking each of the letters P, V, m, a, L and H matches none of
      the first twelve patterns: each of them contains one of those letters
      (at the position given). */
  lemma NoEarlyPattern(text: string)
    requires 'P' !in text && 'V' !in text && 'm' !in text
    requires 'a' !in text && 'L' !in text && 'H' !in text
    ensures !Contains(text, "Private video")
    ensures !Contains(text, "Video unavailable")
    ensures !Contains(text, "removed for violating")
    ensures !Contains(text, "not available in your country")
    ensures !Contains(text, "age-restricted")
    ensures !Contains(text, "Login required")
    ensures !Contains(text, "payment to watch")
    ensures !Contains(text, "Premiere")
    ensures !Contains(text, "Live event")
    ensures !Contains(text, "HTTP Error 404")
    ensures !Contains(text, "HTTP Error 403")
    ensures !Contains(text, "HTTP Error 429")
  {
    AbsentCharNoOccurrence(text, "Private video", 0);
    AbsentCharNoOccurrence(text, "Video unavailable", 0);
    AbsentCharNoOccurrence(text, "removed for violating", 2);
    AbsentCharNoOccurrence(text, "not available in your country", 4);
    AbsentCharNoOccurrence(text, "age-restricted", 0);
    AbsentCharNoOccurrence(text, "Login required", 0);
    AbsentCharNoOccurrence(text, "payment to watch", 1);
    AbsentCharNoOccurrence(text, "Premiere", 0);
    AbsentCharNoOccurrence(text, "Live event", 0);
    AbsentCharNoOccurrence(text, "HTTP Error 404", 0);
    AbsentCharNoOccurrence(text, "HTTP Error 403", 0);
    AbsentCharNoOccurrence(text, "HTTP Error 429", 0);
  }

  /** An error text that carries "no file produced" and none of the letters
      above reads "Download failed.", whatever else it says. */
  lemma NoFileProducedClassified(text: string)
    requires Contains(text, "no file produced")
    requires 'P' !in text && 'V' !in text && 'm' !in text
    requires 'a' !in text && 'L' !in text && 'H' !in text
    ensures SimpleError(text) == "Download failed."
  {
    NoEarlyPattern(text);
  }

  /** The worker's "no file produced" failure text has none of the letters
      P, V, m, a, L and H, so `NoFileProducedClassified` applies to it. */
  lemma NoFileProducedLetters(message: string)
    requires message == "no file produced"
    ensures 'P' !in message && 'V' !in message && 'm' !in message
    ensures 'a' !in message && 'L' !in message && 'H' !in message
  {
  }

  /** The worker's own failure text itself reads "Download failed.". */
  lemma NoFileProducedMessage(message: string)
    requires message == "no file produced"
    ensures SimpleError(message) == "Download failed."
  {
    NoFileProducedLetters(message);
    assert OccursAt(message, "no file produced", 0);
    ContainsIff(message, "no file produced");
    NoFileProducedClassified(message);
  }
}

=== FILE: cleanup.dfy ===
/** The file removal that `/file/<id>` schedules after serving a completed
    task (app.py). As written, an archive result makes it remove the whole
    directory that holds the archive, which is the storage root shared by
    every task; the corrected cleanup removes only the served file. */
module Cleanup {
  import opened Text

  datatype FileEffect = RemoveFile(path: string) | RemoveTree(dir: string)

  /** Python's `name.endswith(suffix)`. */
  predicate EndsWith(name: string, suffix: string) {
    |suffix| <= |name| && name[|name| - |suffix|..] == suffix
  }

  /** `name.endswith(suffix)` holds exactly when `name` is some string
      followed by `suffix`. */
  lemma EndsWithIsSuffix(name: string, prefix: string, suffix: string)
    ensures EndsWith(prefix + suffix, suffix)
    ensures EndsWith(name, suffix) <==> |suffix| <= |name| && name == name[..|name| - |suffix|] + suffix
  {
    assert (prefix + suffix)[|prefix|..] == suffix;
  }

  /** `s.rstrip('/')`. */
  function StripSlashes(s: string): (r: string)
    ensures |r| <= |s| && r == s[..|r|]
    ensures r == [] || r[|r| - 1] != '/'
    ensures forall i :: |r| <= i < |s| ==> s[i] == '/'
  {
    if s != [] && s[|s| - 1] == '/' then StripSlashes(s[..|s| - 1]) else s
  }

  /** Python's `os.path.dirname(p)`: everything before the base name, without
      trailing slashes unless it consists of slashes only. */
  function DirName(p: string): (r: string)
    ensures |r| + |Basename(p)| <= |p| && r == p[..|r|]
    ensures forall i :: |r| <= i < |p| - |Basename(p)| ==> p[i] == '/'
    // trailing slashes are dropped unless the directory part is all slashes
    ensures (exists i :: 0 <= i < |p| - |Basename(p)| && p[i] != '/') ==> r != [] && r[|r| - 1] != '/'
    ensures (forall i :: 0 <= i < |p| - |Basename(p)| ==> p[i] == '/') ==> |r| + |Basename(p)| == |p|
  {
    var head := p[..|p| - |Basename(p)|];
    if head != [] && StripSlashes(head) != [] then StripSlashes(head) else head
  }

  /** The directory part of `join(dir, name)` is `dir` again. */
  lemma DirNameOfJoin(dir: string, name: string)
    requires dir != [] && dir[|dir| - 1] != '/' && '/' !in name
    ensures DirName(JoinPath(dir, name)) == dir
  {
    var p := JoinPath(dir, name);
    if name != [] {
      assert name[0] in name;
    }
    assert p == (dir + "/") + name;
    BasenameOfJoin(dir, name);
    assert p[..|p| - |name|] == dir + "/";
    assert (dir + "/")[..|dir|] == dir;
    assert StripSlashes(dir + "/") == StripSlashes(dir) == dir;
  }

  /** The cleanup of app.py as written: an archive result first removes the
      directory containing it, then the file itself. */
  function CleanupAsWritten(filepath: string): (effects: seq<FileEffect>)
    ensures |effects| >= 1 && effects[|effects| - 1] == RemoveFile(filepath)
    ensures |effects| == 2 <==> EndsWith(Basename(filepath), ".zip")
    ensures |effects| == 2 ==> effects[0] == RemoveTree(DirName(filepath))
    ensures !EndsWith(Basename(filepath), ".zip") ==> effects == [RemoveFile(filepath)]
  {
    (if EndsWith(Basename(filepath), ".zip") then [RemoveTree(DirName(filepath))] else [])
    + [RemoveFile(filepath)]
  }

  /** The defect: cleaning up after an archive `dir/name` removes all of
      `dir`, not just the archive. */
  lemma ArchiveCleanupRemovesItsDirectory(dir: string, name: string)
    requires dir != [] && dir[|dir| - 1] != '/' && '/' !in name && EndsWith(name, ".zip")
    ensures RemoveTree(dir) in CleanupAsWritten(JoinPath(dir, name))
  {
    BasenameOfJoin(dir, name);
    DirNameOfJoin(dir, name);
  }

  /** The corrected cleanup: remove the served file and nothing else (the
      worker already removed the scratch directory the archive was built from). */
  function CleanupCorrected(filepath: string): (effects: seq<FileEffect>)
    ensures forall e :: e in effects ==> e == RemoveFile(filepath)
    ensures RemoveFile(filepath) in effects
  {
    [RemoveFile(filepath)]
  }

  /** With the corrected cleanup, retrieving one task removes no directory and
      no path other than the served one. */
  lemma CorrectedCleanupSparesOtherResults(mine: string, other: string)
    requires mine != other
    ensures RemoveFile(other) !in CleanupCorrected(mine)
    ensures forall d :: RemoveTree(d) !in CleanupCorrected(mine)
  {
  }
}

=== FILE: downloads.dfy ===
/** The synchronous download endpoint of downloads.py: one request fetches
    into a scratch directory, answers with the produced file (or an archive of
    the collection) or with an error, and always tries to remove the scratch
    directory afterwards. */
module Downloads {
  import opened Optional
  import opened Text
  import opened FetchPlan
  import Jobs

  /** File-system effects, in the order the handler performs them. */
  datatype FsAction =
    | MakeTemp(dir: string)
    | MakeArchive(archive: string, root: string)
    | RemoveScratch(dir: string)

  datatype Response = SendFile(path: string, downloadName: string) | JsonError(code: int, message: string)

  /** What the handler answered, what it did to the file system, and the
      options it handed to the fetcher (none when it did not fetch). */
  datatype Handled = Handled(response: Response, effects: seq<FsAction>, options: Option<FetchOptions>)

  /** The archive `make_archive(tmpdir, 'zip', tmpdir)` writes next to the
      scratch directory. */
  function ZipOf(tmpdir: string): string {
    tmpdir + ".zip"
  }

  /** The response once the scratch directory `tmpdir` exists and the fetch
      (with the archiving that follows it) ended as `fetch`. */
  function Respond(mode: string, tmpdir: string, fetch: Jobs.FetchOutcome): (r: Response)
    ensures r.JsonError? ==> r.code == 500
    ensures fetch.FetchFailed? ==> r == JsonError(500, "download failed: " + fetch.message)
    ensures fetch.Fetched? && mode == "playlist" ==> r == SendFile(ZipOf(tmpdir), Basename(ZipOf(tmpdir)))
    ensures fetch.Fetched? && mode != "playlist" ==>
              (r.JsonError? <==> Visible(fetch.files) == [])
              && (r.JsonError? ==> r.message == "no file produced")
              && (r.SendFile? ==> r.path == JoinPath(tmpdir, Visible(fetch.files)[0])
                                  && r.downloadName == Basename(r.path))
  {
    match fetch
    case FetchFailed(msg) => JsonError(500, "download failed: " + msg)
    case Fetched(files) =>
      if mode == "playlist" then
        SendFile(ZipOf(tmpdir), Basename(ZipOf(tmpdir)))
      else
        var produced := Visible(files);
        if produced == [] then JsonError(500, "no file produced")
        else
          var outfile := JoinPath(tmpdir, produced[0]);
          SendFile(outfile, Basename(outfile))
  }

  /** `POST /download` of downloads.py. `tmpdir` is the directory `mkdtemp`
      creates. The final removal sits in a `finally` that swallows its own
      errors, so the response never depends on whether it succeeds. */
  function Download(req: Jobs.DownloadRequest, tmpdir: string, fetch: Jobs.FetchOutcome): (h: Handled)
    // a missing url is rejected before anything touches the file system
    ensures !Truthy(req.url) <==> h.effects == []
    ensures !Truthy(req.url) ==> h == Handled(JsonError(400, "missing url"), [], None)
    // otherwise the scratch directory is created first and removed last, on every path
    ensures Truthy(req.url) ==>
              && |h.effects| >= 2
              && h.effects[0] == MakeTemp(tmpdir)
              && h.effects[|h.effects| - 1] == RemoveScratch(tmpdir)
              && h.response == Respond(req.mode.GetOr("video"), tmpdir, fetch)
              && h.options == Some(SelectOptions(req.mode.GetOr("video"), req.submode.GetOr("video"),
                                                 req.formatId, tmpdir))
    // the archive is written exactly for a collection whose fetch succeeded
    ensures MakeArchive(ZipOf(tmpdir), tmpdir) in h.effects
            <==> Truthy(req.url) && req.mode.GetOr("video") == "playlist" && fetch.Fetched?
    ensures |h.effects| <= 3
  {
    if !Truthy(req.url) then
      Handled(JsonError(400, "missing url"), [], None)
    else
      var mode := req.mode.GetOr("video");
      var options := SelectOptions(mode, req.submode.GetOr("video"), req.formatId, tmpdir);
      var archived := if mode == "playlist" && fetch.Fetched? then [MakeArchive(ZipOf(tmpdir), tmpdir)] else [];
      Handled(Respond(mode, tmpdir, fetch), [MakeTemp(tmpdir)] + archived + [RemoveScratch(tmpdir)], Some(options))
  }

  /** A collection is sent as `<tmpdir>.zip` under the base name of the
      scratch directory plus ".zip". */
  lemma ArchiveSentUnderScratchName(tmpdir: string, files: seq<string>)
    ensures Respond("playlist", tmpdir, Jobs.Fetched(files))
            == SendFile(tmpdir + ".zip", Basename(tmpdir) + ".zip")
  {
    assert '/' !in ".zip";
    BasenameAppend(tmpdir, ".zip");
  }

  /** A single download is sent under the name of the first listed file that
      is not hidden. */
  lemma SingleSentUnderOwnName(mode: string, tmpdir: string, files: seq<string>)
    requires mode != "playlist"
    requires forall f :: f in files ==> '/' !in f
    requires Visible(files) != []
    ensures Respond(mode, tmpdir, Jobs.Fetched(files)).downloadName == Visible(files)[0]
  {
    assert Visible(files)[0] in files;
    BasenameOfJoin(tmpdir, Visible(files)[0]);
  }

  /** The synchronous endpoint and the job worker pick the same fetch options
      for one request: a request submitted to an idle queue reaches the
      worker's fetcher with the options this endpoint would use in the same
      scratch directory, format selector included. */
  lemma EndpointAndWorkerAgree(st: Jobs.State, req: Jobs.DownloadRequest, newId: string,
                               scratch: string, fetch: Jobs.FetchOutcome)
    requires newId !in st.tasks && Truthy(req.url) && st.queue == []
    ensures var st' := Jobs.Submit(st, req, newId).state;
            && |st'.queue| > 0 && st'.queue[0] == newId && newId in st'.tasks
            && Some(Jobs.WorkerOptions(st', scratch))
               == Download(req, JoinPath(Jobs.DownloadFolder, scratch), fetch).options
  {
  }
}

=== FILE: fetch_plan.dfy ===
/** How a job's mode, submode and format selector become the option set handed
    to the media fetcher. The worker of app.py and the synchronous endpoint of
    downloads.py use the same dispatch: only mode "playlist" archives a whole
    collection, mode "audio" extracts mp3 audio, and every other mode string
    downloads video merged into mp4. */
module FetchPlan {
  import opened Optional
  import opened Text

  const BestAudio: string := "bestaudio/best"
  const DefaultVideoFormat: string := "bestvideo[ext=mp4]+bestaudio[ext=m4a]/best"
  const MergeContainer: string := "mp4"
  /** Output file name templates, relative to the scratch directory. */
  const CollectionTemplate: string := "%(playlist_index)03d - %(title)s.%(ext)s"
  const SingleTemplate: string := "%(id)s.%(ext)s"

  /** A post-processing step; the only one used extracts audio. */
  datatype Postprocessor = ExtractAudio(codec: string, quality: string)

  const Mp3At192: Postprocessor := ExtractAudio("mp3", "192")

  /** The fetch options that vary between jobs. The fixed ones (quiet
      output, no warnings, the ffmpeg location, the cookie file) are left out. */
  datatype FetchOptions = FetchOptions(
    format: string,
    outputTemplate: string,
    mergeOutputFormat: Option<string>,
    postprocessors: seq<Postprocessor>,
    ignoreErrors: bool,
    noPlaylist: bool)

  /** The pipeline branch a mode string selects. */
  datatype Branch = Collection | SingleAudio | SingleVideo

  function BranchOf(mode: string): (b: Branch)
    ensures b == Collection <==> mode == "playlist"
    ensures b == SingleAudio <==> mode == "audio"
  {
    if mode == "playlist" then Collection
    else if mode == "audio" then SingleAudio
    else SingleVideo
  }

  /** Best audio, converted to mp3 at quality 192. */
  function AudioOptions(template: string, noPlaylist: bool, ignoreErrors: bool): FetchOptions {
    FetchOptions(BestAudio, template, None, [Mp3At192], ignoreErrors, noPlaylist)
  }

  /** Separate best mp4 video and m4a audio merged into mp4, or the best single
      stream, unless a format selector replaces that rule. */
  function VideoOptions(format: string, template: string, noPlaylist: bool, ignoreErrors: bool): FetchOptions {
    FetchOptions(format, template, Some(MergeContainer), [], ignoreErrors, noPlaylist)
  }

  /** The options for one job whose scratch directory is `tmpdir`. */
  function SelectOptions(mode: string, submode: string, formatId: Option<string>, tmpdir: string): (o: FetchOptions)
    // a collection tolerates failing items and fetches every item
    ensures o.ignoreErrors <==> mode == "playlist"
    ensures o.noPlaylist <==> mode != "playlist"
    ensures o.outputTemplate
            == JoinPath(tmpdir, if mode == "playlist" then CollectionTemplate else SingleTemplate)
    // audio extraction exactly for audio jobs and audio collections, always from the best audio
    ensures o.postprocessors != [] <==> mode == "audio" || (mode == "playlist" && submode == "audio")
    ensures o.postprocessors != [] ==> o.postprocessors == [Mp3At192] && o.format == BestAudio
                                        && o.mergeOutputFormat == None
    ensures o.postprocessors == [] ==> o.mergeOutputFormat == Some(MergeContainer)
    // the format selector counts only for single video, and only when truthy
    ensures o.postprocessors == [] && mode == "playlist" ==> o.format == DefaultVideoFormat
    ensures BranchOf(mode) == SingleVideo
            ==> o.format == (if Truthy(formatId) then formatId.value else DefaultVideoFormat)
  {
    match BranchOf(mode)
    case Collection =>
      var template := JoinPath(tmpdir, CollectionTemplate);
      if submode == "audio" then AudioOptions(template, false, true)
      else VideoOptions(DefaultVideoFormat, template, false, true)
    case SingleAudio =>
      AudioOptions(JoinPath(tmpdir, SingleTemplate), true, false)
    case SingleVideo =>
      var format := if Truthy(formatId) then formatId.value else DefaultVideoFormat;
      VideoOptions(format, JoinPath(tmpdir, SingleTemplate), true, false)
  }

  /** The format selector is ignored by audio jobs and by collections. */
  lemma FormatIdOnlyForVideo(mode: string, submode: string, f1: Option<string>, f2: Option<string>, tmpdir: string)
    requires BranchOf(mode) != SingleVideo
    ensures SelectOptions(mode, submode, f1, tmpdir) == SelectOptions(mode, submode, f2, tmpdir)
  {
  }

  /** The submode matters only for collections. */
  lemma SubmodeOnlyForCollections(mode: string, s1: string, s2: string, formatId: Option<string>, tmpdir: string)
    requires mode != "playlist"
    ensures SelectOptions(mode, s1, formatId, tmpdir) == SelectOptions(mode, s2, formatId, tmpdir)
  {
  }

  /** A mode string the worker does not know, such as "collection", is
      treated as a single video download. */
  lemma UnknownModeIsVideo(mode: string)
    requires mode !in {"playlist", "audio"}
    ensures BranchOf(mode) == SingleVideo
  {
  }
}

=== FILE: info.dfy ===
/** The metadata summary behind `POST /info` (info.py, duplicated in app.py):
    a probe result becomes either a playlist summary (a sample of at most ten
    entries and the total count) or a video summary (one record per format). */
module Info {
  import opened Optional
  import opened Text
  import Classifier

  /** The scalar JSON values metadata fields carry; `Null` is also what
      `dict.get` yields for a missing key. */
  datatype Value = Null | Bool(b: bool) | Int(i: int) | Float(x: real) | Str(s: string)

  /** Python truthiness of a scalar. */
  predicate Falsy(v: Value) {
    match v
    case Null => true
    case Bool(b) => !b
    case Int(i) => i == 0
    case Float(x) => x == 0.0
    case Str(s) => s == ""
  }

  /** Python's `a or b`: the first operand unless it is falsy. */
  function Or(a: Value, b: Value): (r: Value)
    ensures !Falsy(a) ==> r == a
    ensures Falsy(a) ==> r == b
  {
    if Falsy(a) then b else a
  }

  type Dict = map<string, Value>

  /** `d.get(key)`. */
  function Get(d: Dict, key: string): Value {
    if key in d then d[key] else Null
  }

  /** A probe result. `fields` holds the scalar keys; `entries` is `None` when
      the key is absent, and each entry is `None` for a null entry; a missing
      'formats' key reads as the empty list. */
  datatype Metadata = Metadata(fields: Dict, entries: Option<seq<Option<Dict>>>, formats: seq<Dict>)

  datatype EntrySummary = EntrySummary(id: Value, title: Value, duration: Value, thumbnail: Value)

  datatype FormatSummary = FormatSummary(
    formatId: Value, ext: Value, acodec: Value, vcodec: Value,
    filesize: Value, height: Value, abr: Value)

  datatype Summary =
    | PlaylistSummary(id: Value, title: Value, uploader: Value, thumbnail: Value,
                      totalVideos: nat, sample: seq<EntrySummary>)
    | VideoSummary(id: Value, title: Value, uploader: Value, thumbnail: Value,
                   formats: seq<FormatSummary>)

  /** What the probe reported: an exception text or the metadata. */
  datatype Probe = ProbeFailed(message: string) | Probed(meta: Metadata)

  datatype InfoReply = InfoOk(summary: Summary) | InfoError(code: int, message: string)

  /** The sample size. */
  const SampleLimit: nat := 10

  /** A null entry and an empty dict are both skipped. */
  predicate Kept(e: Option<Dict>) {
    e.Some? && e.value != map[]
  }

  /** One playlist entry: its id, title, duration and thumbnail, each read
      with `.get`, so a missing key reads as `None`. */
  function SummarizeEntry(d: Dict): (r: EntrySummary)
    ensures r.id == Get(d, "id") && r.title == Get(d, "title")
    ensures r.duration == Get(d, "duration") && r.thumbnail == Get(d, "thumbnail")
  {
    EntrySummary(Get(d, "id"), Get(d, "title"), Get(d, "duration"), Get(d, "thumbnail"))
  }

  /** The summaries of the entries that are kept, as a set. */
  function KeptSummaries(es: seq<Option<Dict>>): set<EntrySummary> {
    set e | e in es && Kept(e) :: SummarizeEntry(e.value)
  }

  /** The summaries of the kept entries, in order. */
  function Compact(es: seq<Option<Dict>>): (r: seq<EntrySummary>)
    ensures |r| <= |es|
  {
    if es == [] then []
    else if Kept(es[0]) then [SummarizeEntry(es[0].value)] + Compact(es[1..])
    else Compact(es[1..])
  }

  /** Every compacted record summarizes a kept entry, every kept entry is
      summarized, and nothing comes out exactly when nothing is kept. */
  lemma {:induction false} CompactContents(es: seq<Option<Dict>>)
    ensures var r := Compact(es);
            && (forall k :: 0 <= k < |r| ==> r[k] in KeptSummaries(es))
            && (forall e :: e in es && Kept(e) ==> SummarizeEntry(e.value) in r)
            && (r == [] <==> forall e :: e in es ==> !Kept(e))
    decreases |es|
  {
    if es != [] {
      CompactContents(es[1..]);
      assert forall e :: e in es[1..] ==> e in es;
      assert forall e :: e in es ==> e == es[0] || e in es[1..];
    }
  }

  /** Skipping keeps the order: compacting a concatenation is concatenating
      the compacted parts. */
  lemma {:induction false} CompactAppend(a: seq<Option<Dict>>, b: seq<Option<Dict>>)
    ensures Compact(a + b) == Compact(a) + Compact(b)
    decreases |a|
  {
    if a == [] {
      assert a + b == b;
    } else {
      assert (a + b)[1..] == a[1..] + b;
      CompactAppend(a[1..], b);
    }
  }

  /** `entries[:10]`. */
  function FirstTen(entries: seq<Option<Dict>>): (h: seq<Option<Dict>>)
    ensures |h| == if |entries| <= SampleLimit then |entries| else SampleLimit
    ensures forall i :: 0 <= i < |h| ==> h[i] == entries[i]
  {
    if |entries| <= SampleLimit then entries else entries[..SampleLimit]
  }

  /** The first ten entries, with null and empty ones skipped: every sampled
      record summarizes a kept entry among the first ten, and every such
      entry is sampled. */
  function Sample(entries: seq<Option<Dict>>): (r: seq<EntrySummary>)
    ensures |r| <= SampleLimit
    ensures forall k :: 0 <= k < |r| ==> r[k] in KeptSummaries(FirstTen(entries))
    ensures forall i :: 0 <= i < |entries| && i < SampleLimit && Kept(entries[i])
              ==> SummarizeEntry(entries[i].value) in r
    ensures r == [] <==> forall i :: 0 <= i < |entries| && i < SampleLimit ==> !Kept(entries[i])
  {
    var head := FirstTen(entries);
    assert forall i :: 0 <= i < |entries| && i < SampleLimit ==> entries[i] == head[i] && head[i] in head;
    assert forall e :: e in head ==> exists i :: 0 <= i < |head| && head[i] == e;
    CompactContents(head);
    Compact(head)
  }

  /** One format record, with the exact size replaced by the approximate one
      when it is missing or falsy. */
  function SummarizeFormat(f: Dict): (r: FormatSummary)
    ensures r.filesize == (if Falsy(Get(f, "filesize")) then Get(f, "filesize_approx") else Get(f, "filesize"))
    ensures r.formatId == Get(f, "format_id") && r.ext == Get(f, "ext")
    ensures r.acodec == Get(f, "acodec") && r.vcodec == Get(f, "vcodec")
    ensures r.height == Get(f, "height") && r.abr == Get(f, "abr")
  {
    FormatSummary(Get(f, "format_id"), Get(f, "ext"), Get(f, "acodec"), Get(f, "vcodec"),
                  Or(Get(f, "filesize"), Get(f, "filesize_approx")), Get(f, "height"), Get(f, "abr"))
  }

  function SummarizeFormats(fs: seq<Dict>): (r: seq<FormatSummary>)
    ensures |r| == |fs|
    ensures forall i :: 0 <= i < |fs| ==> r[i] == SummarizeFormat(fs[i])
  {
    if fs == [] then [] else [SummarizeFormat(fs[0])] + SummarizeFormats(fs[1..])
  }

  /** The summary of a successful probe. */
  function Summarize(meta: Metadata): (r: Summary)
    ensures r.PlaylistSummary? <==> meta.entries.Some?
    ensures r.id == Get(meta.fields, "id") && r.title == Get(meta.fields, "title")
            && r.uploader == Get(meta.fields, "uploader") && r.thumbnail == Get(meta.fields, "thumbnail")
    ensures r.PlaylistSummary? ==>
              && r.totalVideos == |meta.entries.value|
              && r.sample == Sample(meta.entries.value)
    ensures r.VideoSummary? ==> r.formats == SummarizeFormats(meta.formats)
  {
    var fields := meta.fields;
    match meta.entries
    case Some(entries) =>
      PlaylistSummary(Get(fields, "id"), Get(fields, "title"), Get(fields, "uploader"),
                      Get(fields, "thumbnail"), |entries|, Sample(entries))
    case None =>
      VideoSummary(Get(fields, "id"), Get(fields, "title"), Get(fields, "uploader"),
                   Get(fields, "thumbnail"), SummarizeFormats(meta.formats))
  }

  /** `get_info` of info.py: the raw exception text is passed through. */
  function GetInfo(url: Option<string>, probe: Probe): (r: InfoReply)
    ensures !Truthy(url) ==> r == InfoError(400, "missing url")
    ensures Truthy(url) && probe.ProbeFailed? ==> r == InfoError(400, probe.message)
    ensures Truthy(url) && probe.Probed? ==> r == InfoOk(Summarize(probe.meta))
  {
    if !Truthy(url) then InfoError(400, "missing url")
    else
      match probe
      case ProbeFailed(msg) => InfoError(400, msg)
      case Probed(meta) => InfoOk(Summarize(meta))
  }

  /** `info` of app.py: the same, except that the exception text is classified. */
  function AppInfo(url: Option<string>, probe: Probe): (r: InfoReply)
    ensures !Truthy(url) ==> r == InfoError(400, "missing url")
    ensures Truthy(url) && probe.ProbeFailed? ==> r == InfoError(400, Classifier.SimpleError(probe.message))
    ensures Truthy(url) && probe.Probed? ==> r == InfoOk(Summarize(probe.meta))
  {
    if !Truthy(url) then InfoError(400, "missing url")
    else
      match probe
      case ProbeFailed(msg) => InfoError(400, Classifier.SimpleError(msg))
      case Probed(meta) => InfoOk(Summarize(meta))
  }

  /** Entries after the tenth never reach the sample. */
  lemma SampleIgnoresTail(head: seq<Option<Dict>>, tail: seq<Option<Dict>>)
    requires |head| == SampleLimit
    ensures Sample(head + tail) == Sample(head)
  {
    if tail == [] {
      assert head + tail == head;
    } else {
      assert (head + tail)[..SampleLimit] == head;
    }
  }

  /** The sample lists the kept entries among the first ten in their original
      order: splitting those ten anywhere splits the sample at the same place. */
  lemma SampleKeepsOrder(a: seq<Option<Dict>>, b: seq<Option<Dict>>)
    requires |a + b| <= SampleLimit
    ensures Sample(a + b) == Compact(a) + Compact(b)
  {
    CompactAppend(a, b);
  }

  /** Null entries are skipped by the sample but still counted in the total. */
  lemma NullEntriesCountedNotSampled(fields: Dict, entries: seq<Option<Dict>>)
    requires forall i :: 0 <= i < |entries| ==> entries[i] == None
    ensures var r := Summarize(Metadata(fields, Some(entries), []));
            r.totalVideos == |entries| && r.sample == []
  {
  }

  /** A size of 0 counts as missing: the approximate size is reported instead. */
  lemma ZeroSizeFallsBack(f: Dict)
    requires Get(f, "filesize") == Int(0)
    ensures SummarizeFormat(f).filesize == Get(f, "filesize_approx")
  {
  }

  /** The two /info handlers agree on everything but a failed probe, where
      app.py classifies the text that info.py passes through raw. */
  lemma AppInfoClassifiesProbeErrors(url: Option<string>, probe: Probe)
    ensures probe.Probed? || !Truthy(url) ==> AppInfo(url, probe) == GetInfo(url, probe)
    ensures probe.ProbeFailed? && Truthy(url) ==>
              GetInfo(url, probe) == InfoError(400, probe.message)
              && AppInfo(url, probe) == InfoError(400, Classifier.SimpleError(GetInfo(url, probe).message))
  {
  }
}

=== FILE: job_theorems.dfy ===
/** Properties of the job subsystem that relate several operations: the
    invariant every reachable state keeps, monotonic task status, first-in
    first-out processing, and one-shot retrieval. */
module JobTheorems {
  import opened Optional
  import opened Text
  import opened Jobs
  import opened Cleanup
  import Classifier

  /** A result path exactly for completed tasks, an error exactly for failed ones. */
  predicate WellFormed(t: Task) {
    && (t.result.Some? <==> t.status == Completed)
    && (t.error.Some? <==> t.status == Failed)
  }

  predicate NoDuplicates(q: seq<string>) {
    forall i, j :: 0 <= i < j < |q| ==> q[i] != q[j]
  }

  /** The invariant of every reachable state: records are well formed and
      filed under their own id, and the queue holds each pending task exactly
      once and nothing else. */
  predicate Valid(st: State) {
    && (forall id :: id in st.tasks ==> st.tasks[id].id == id && WellFormed(st.tasks[id]))
    && (forall i :: 0 <= i < |st.queue| ==>
          st.queue[i] in st.tasks && st.tasks[st.queue[i]].status == Pending)
    && (forall id :: id in st.tasks && st.tasks[id].status == Pending ==> id in st.queue)
    && NoDuplicates(st.queue)
  }

  /** Everything a caller (or the worker thread) can do to the state. */
  datatype Event =
    | SubmitEvent(request: DownloadRequest, newId: string)
    | StatusEvent(taskId: string)
    | RetrieveEvent(taskId: string)
    | WorkEvent(scratch: string, fetch: FetchOutcome)

  /** A submission needs a fresh id; the worker needs a queued task. */
  predicate Enabled(st: State, ev: Event) {
    match ev
    case SubmitEvent(_, newId) => newId !in st.tasks
    case WorkEvent(_, _) => |st.queue| > 0 && st.queue[0] in st.tasks
    case _ => true
  }

  function Apply(st: State, ev: Event): State
    requires Enabled(st, ev)
  {
    match ev
    case SubmitEvent(req, newId) => Submit(st, req, newId).state
    case StatusEvent(_) => st
    case RetrieveEvent(id) => Retrieve(st, id).state
    case WorkEvent(scratch, fetch) => WorkerStep(st, scratch, fetch)
  }

  /** The id an event appends to the queue, if any. */
  function Admitted(ev: Event): seq<string> {
    if ev.SubmitEvent? && Truthy(ev.request.url) then [ev.newId] else []
  }

  /** The id an event takes off the queue, if any. */
  function Taken(st: State, ev: Event): seq<string>
    requires Enabled(st, ev)
  {
    if ev.WorkEvent? then [st.queue[0]] else []
  }

  /** The events of `evs` can happen one after the other from `st`. */
  predicate Runs(st: State, evs: seq<Event>)
    decreases |evs|
  {
    evs == [] || (Enabled(st, evs[0]) && Runs(Apply(st, evs[0]), evs[1..]))
  }

  function Replay(st: State, evs: seq<Event>): State
    requires Runs(st, evs)
    decreases |evs|
  {
    if evs == [] then st else Replay(Apply(st, evs[0]), evs[1..])
  }

  function AdmittedAll(evs: seq<Event>): seq<string>
    decreases |evs|
  {
    if evs == [] then [] else Admitted(evs[0]) + AdmittedAll(evs[1..])
  }

  /** The ids the worker processed during `evs`, in the order it took them. */
  function TakenAll(st: State, evs: seq<Event>): seq<string>
    requires Runs(st, evs)
    decreases |evs|
  {
    if evs == [] then [] else Taken(st, evs[0]) + TakenAll(Apply(st, evs[0]), evs[1..])
  }

  // ---------------------------------------------------------------------
  // The invariant

  lemma EmptyIsValid()
    ensures Valid(Empty)
  {
  }

  /** In a valid state the worker's lookup of the queue head succeeds. */
  lemma QueuedHeadIsKnown(st: State)
    requires Valid(st) && |st.queue| > 0
    ensures st.queue[0] in st.tasks
  {
  }

  lemma SubmitKeepsValid(st: State, req: DownloadRequest, newId: string)
    requires Valid(st) && newId !in st.tasks
    ensures Valid(Submit(st, req, newId).state)
  {
    var st' := Submit(st, req, newId).state;
    if Truthy(req.url) {
      forall i, j | 0 <= i < j < |st'.queue|
        ensures st'.queue[i] != st'.queue[j]
      {
        if j == |st.queue| {
          assert st.queue[i] in st.tasks;
        }
      }
      forall id | id in st'.tasks && st'.tasks[id].status == Pending
        ensures id in st'.queue
      {
        if id != newId {
          var i :| 0 <= i < |st.queue| && st.queue[i] == id;
          assert st'.queue[i] == id;
        } else {
          assert st'.queue[|st.queue|] == id;
        }
      }
    }
  }

  lemma RetrieveKeepsValid(st: State, taskId: string)
    requires Valid(st)
    ensures Valid(Retrieve(st, taskId).state)
  {
  }

  /** Finishing a pending, well-formed task leaves it well formed. */
  lemma ResolveKeepsWellFormed(t: Task, run: RunResult)
    requires WellFormed(t) && t.status == Pending
    ensures WellFormed(Resolve(t, run)) && Resolve(t, run).id == t.id
    ensures Resolve(t, run).status != Pending
  {
  }

  /** Taking the head off the queue and finishing it keeps the invariant,
      whatever the outcome. */
  lemma FinishHeadKeepsValid(st: State, st': State)
    requires Valid(st) && |st.queue| > 0
    requires st'.queue == st.queue[1..] && st'.tasks.Keys == st.tasks.Keys
    requires forall id :: id in st.tasks && id != st.queue[0] ==> st'.tasks[id] == st.tasks[id]
    requires var t := st'.tasks[st.queue[0]];
             t.id == st.queue[0] && WellFormed(t) && t.status != Pending
    ensures Valid(st')
  {
    var head := st.queue[0];
    forall i | 0 <= i < |st'.queue|
      ensures st'.queue[i] in st'.tasks && st'.tasks[st'.queue[i]].status == Pending
    {
      assert st'.queue[i] == st.queue[i + 1] != head;
    }
    forall id | id in st'.tasks && st'.tasks[id].status == Pending
      ensures id in st'.queue
    {
      assert id != head;
      var i :| 0 <= i < |st.queue| && st.queue[i] == id;
      assert i > 0;
      assert st'.queue[i - 1] == id;
    }
  }

  lemma WorkerStepKeepsValid(st: State, scratch: string, fetch: FetchOutcome)
    requires Valid(st) && |st.queue| > 0
    ensures Valid(WorkerStep(st, scratch, fetch))
  {
    var t := st.tasks[st.queue[0]];
    ResolveKeepsWellFormed(t, RunPipeline(t.mode, scratch, fetch));
    FinishHeadKeepsValid(st, WorkerStep(st, scratch, fetch));
  }

  lemma ApplyKeepsValid(st: State, ev: Event)
    requires Valid(st) && Enabled(st, ev)
    ensures Valid(Apply(st, ev))
  {
    match ev
    case SubmitEvent(req, newId) => SubmitKeepsValid(st, req, newId);
    case StatusEvent(_) =>
    case RetrieveEvent(id) => RetrieveKeepsValid(st, id);
    case WorkEvent(scratch, fetch) => WorkerStepKeepsValid(st, scratch, fetch);
  }

  lemma {:induction false} ReplayKeepsValid(st: State, evs: seq<Event>)
    requires Valid(st) && Runs(st, evs)
    ensures Valid(Replay(st, evs))
    decreases |evs|
  {
    if evs != [] {
      ApplyKeepsValid(st, evs[0]);
      ReplayKeepsValid(Apply(st, evs[0]), evs[1..]);
    }
  }

  // ---------------------------------------------------------------------
  // Monotonic status

  function Rank(s: Status): nat {
    match s
    case Pending => 0
    case Processing => 1
    case Completed => 2
    case Failed => 2
  }

  predicate Terminal(s: Status) {
    s == Completed || s == Failed
  }

  /** `t'` is a later version of `t`: its status has not moved backwards, and
      a finished task has not changed at all. */
  predicate Advanced(t: Task, t': Task) {
    && Rank(t.status) <= Rank(t'.status)
    && (Terminal(t.status) ==> t' == t)
  }

  /** The worker finishes the task it takes, and that task leaves the queue
      for good: it is no longer pending, so the invariant keeps it out. */
  lemma WorkerFinishesHead(st: State, scratch: string, fetch: FetchOutcome)
    requires Valid(st) && |st.queue| > 0
    ensures var st' := WorkerStep(st, scratch, fetch);
            && st.tasks[st.queue[0]].status == Pending
            && Terminal(st'.tasks[st.queue[0]].status)
            && st.queue[0] !in st'.queue
            && WellFormed(st'.tasks[st.queue[0]])
  {
    WorkerStepKeepsValid(st, scratch, fetch);
  }

  /** One event never moves a task backwards. */
  lemma ApplyAdvances(st: State, ev: Event, id: string)
    requires Valid(st) && Enabled(st, ev)
    requires id in st.tasks && id in Apply(st, ev).tasks
    ensures Advanced(st.tasks[id], Apply(st, ev).tasks[id])
  {
    if ev.WorkEvent? && id == st.queue[0] {
      WorkerFinishesHead(st, ev.scratch, ev.fetch);
    }
  }

  /** Over any run, a task present at the end was present at the start (unless
      its id was submitted during the run) and has only advanced. In
      particular a retrieved task never comes back. */
  lemma {:induction false} ReplayAdvances(st: State, evs: seq<Event>, id: string)
    requires Valid(st) && Runs(st, evs)
    requires id !in AdmittedAll(evs)
    requires id in Replay(st, evs).tasks
    ensures id in st.tasks && Advanced(st.tasks[id], Replay(st, evs).tasks[id])
    decreases |evs|
  {
    if evs != [] {
      var st1 := Apply(st, evs[0]);
      assert AdmittedAll(evs) == Admitted(evs[0]) + AdmittedAll(evs[1..]);
      ApplyKeepsValid(st, evs[0]);
      ReplayAdvances(st1, evs[1..], id);
      assert id !in Admitted(evs[0]);
      ApplyAdvances(st, evs[0], id);
    }
  }

  // ---------------------------------------------------------------------
  // First in, first out

  lemma ApplyQueue(st: State, ev: Event)
    requires Enabled(st, ev)
    ensures Taken(st, ev) + Apply(st, ev).queue == st.queue + Admitted(ev)
  {
    match ev
    case SubmitEvent(req, newId) =>
      assert Submit(st, req, newId).state.queue == st.queue + Admitted(ev);
    case StatusEvent(_) =>
    case RetrieveEvent(id) =>
      assert Retrieve(st, id).state.queue == st.queue;
    case WorkEvent(scratch, fetch) =>
      assert WorkerStep(st, scratch, fetch).queue == st.queue[1..];
      assert [st.queue[0]] + st.queue[1..] == st.queue;
  }

  /** Queue discipline: what the worker took, followed by what still waits, is
      what waited at the start followed by what was admitted, in order. */
  lemma {:induction false} Fifo(st: State, evs: seq<Event>)
    requires Runs(st, evs)
    ensures TakenAll(st, evs) + Replay(st, evs).queue == st.queue + AdmittedAll(evs)
    decreases |evs|
  {
    if evs != [] {
      var st1 := Apply(st, evs[0]);
      var taken0, admitted0 := Taken(st, evs[0]), Admitted(evs[0]);
      var takenRest, admittedRest := TakenAll(st1, evs[1..]), AdmittedAll(evs[1..]);
      var final := Replay(st1, evs[1..]);
      assert TakenAll(st, evs) == taken0 + takenRest;
      assert AdmittedAll(evs) == admitted0 + admittedRest;
      assert Replay(st, evs) == final;
      Fifo(st1, evs[1..]);
      assert takenRest + final.queue == st1.queue + admittedRest;
      ApplyQueue(st, evs[0]);
      assert taken0 + st1.queue == st.queue + admitted0;
      Regroup(taken0, takenRest, final.queue, st1.queue, admittedRest, st.queue, admitted0);
    }
  }

  /** Sequence bookkeeping for one step of `Fifo`. */
  lemma Regroup<T>(t0: seq<T>, tRest: seq<T>, q: seq<T>, q1: seq<T>, aRest: seq<T>, q0: seq<T>, a0: seq<T>)
    requires tRest + q == q1 + aRest
    requires t0 + q1 == q0 + a0
    ensures (t0 + tRest) + q == q0 + (a0 + aRest)
  {
    calc {
      (t0 + tRest) + q;
      t0 + (tRest + q);
      t0 + (q1 + aRest);
      (t0 + q1) + aRest;
      (q0 + a0) + aRest;
      q0 + (a0 + aRest);
    }
  }

  /** The worker processes tasks in submission order: the ids it took are a
      prefix of the queue at the start followed by the admitted ids. */
  lemma ProcessedInOrder(st: State, evs: seq<Event>)
    requires Runs(st, evs)
    ensures var taken := TakenAll(st, evs);
            |taken| <= |st.queue + AdmittedAll(evs)|
            && taken == (st.queue + AdmittedAll(evs))[..|taken|]
  {
    Fifo(st, evs);
  }

  /** The ids queued at the start and the fresh ids admitted later are all
      distinct. */
  lemma QueuedAndAdmittedDistinct(st: State, admitted: seq<string>)
    requires Valid(st) && NoDuplicates(admitted)
    requires forall i :: 0 <= i < |admitted| ==> admitted[i] !in st.tasks
    ensures NoDuplicates(st.queue + admitted)
  {
    var all := st.queue + admitted;
    forall i, j | 0 <= i < j < |all|
      ensures all[i] != all[j]
    {
      if j >= |st.queue| {
        assert all[j] == admitted[j - |st.queue|];
        if i < |st.queue| {
          assert all[i] in st.tasks;
        } else {
          assert all[i] == admitted[i - |st.queue|];
        }
      }
    }
  }

  /** A prefix of a sequence without duplicates has none either. */
  lemma PrefixNoDuplicates(s: seq<string>, n: nat)
    requires NoDuplicates(s) && n <= |s|
    ensures NoDuplicates(s[..n])
  {
    forall i, j | 0 <= i < j < n
      ensures s[..n][i] != s[..n][j]
    {
      assert s[..n][i] == s[i] && s[..n][j] == s[j];
    }
  }

  /** With fresh ids, no task is processed twice. */
  lemma ProcessedAtMostOnce(st: State, evs: seq<Event>)
    requires Valid(st) && Runs(st, evs)
    requires NoDuplicates(AdmittedAll(evs))
    requires forall i :: 0 <= i < |AdmittedAll(evs)| ==> AdmittedAll(evs)[i] !in st.tasks
    ensures NoDuplicates(TakenAll(st, evs))
  {
    var all := st.queue + AdmittedAll(evs);
    QueuedAndAdmittedDistinct(st, AdmittedAll(evs));
    ProcessedInOrder(st, evs);
    PrefixNoDuplicates(all, |TakenAll(st, evs)|);
  }

  // ---------------------------------------------------------------------
  // Submission, polling and one-shot retrieval

  /** A task just submitted is reported as pending, with no error. */
  lemma SubmitThenStatus(st: State, req: DownloadRequest, newId: string)
    requires newId !in st.tasks && Truthy(req.url)
    ensures StatusOf(Submit(st, req, newId).state, newId) == Reply(200, TaskStatus(Pending, None))
  {
  }

  /** A completed task is served exactly once: the first retrieval succeeds,
      and after it, whatever else happens (short of reusing the id), both
      retrieval and status polling answer 404. */
  lemma {:induction false} RetrieveIsOneShot(st: State, taskId: string, evs: seq<Event>)
    requires Valid(st) && taskId in st.tasks && st.tasks[taskId].status == Completed
    requires Runs(Retrieve(st, taskId).state, evs)
    requires taskId !in AdmittedAll(evs)
    ensures Retrieve(st, taskId).reply.code == 200
    ensures var later := Replay(Retrieve(st, taskId).state, evs);
            && Retrieve(later, taskId).reply.code == 404
            && StatusOf(later, taskId).code == 404
  {
    var st1 := Retrieve(st, taskId).state;
    RetrieveKeepsValid(st, taskId);
    var later := Replay(st1, evs);
    if taskId in later.tasks {
      ReplayAdvances(st1, evs, taskId);
      assert false;
    }
  }

  // ---------------------------------------------------------------------
  // Outcomes of the worker

  /** A single download whose scratch directory holds only hidden files fails
      with the "Download failed." message. */
  lemma EmptyListingFails(st: State, scratch: string, files: seq<string>)
    requires Valid(st) && |st.queue| > 0
    requires st.tasks[st.queue[0]].mode != "playlist"
    requires forall i :: 0 <= i < |files| ==> Hidden(files[i])
    ensures var t := WorkerStep(st, scratch, Fetched(files)).tasks[st.queue[0]];
            t.status == Failed && t.error == Some("Download failed.") && t.result == None
  {
    if Visible(files) != [] {
      VisibleFirst(files);
    }
    Classifier.NoFileProducedMessage("no file produced");
  }

  // ---------------------------------------------------------------------
  // The cleanup after retrieval

  /** As written, serving a collection's archive removes the storage root, so
      the result of any other task stored there is deleted with it. */
  lemma ArchiveRetrievalAsWrittenRemovesOtherResults(scratch: string, other: string)
    requires '/' !in scratch
    requires DirName(other) == DownloadFolder
    ensures RemoveTree(DirName(other)) in CleanupAsWritten(ArchivePath(scratch))
  {
    var name := "playlist-" + scratch + ".zip";
    ArchiveName(scratch);
    ArchiveCleanupRemovesItsDirectory(DownloadFolder, name);
  }

  /** With the corrected cleanup a retrieval removes only the file it served:
      no directory, and no other task's result unless that task records the
      very same path (which `SameFirstFileSameResult` shows can happen). */
  lemma RetrievalSparesOtherResults(st: State, taskId: string)
    ensures forall e :: e in RetrieveEffects(st, taskId) ==>
              e.RemoveFile? && taskId in st.tasks && st.tasks[taskId].result == Some(e.path)
    ensures forall other :: other in st.tasks && taskId in st.tasks
              && st.tasks[other].result.Some? && st.tasks[other].result != st.tasks[taskId].result
              ==> RemoveFile(st.tasks[other].result.value) !in RetrieveEffects(st, taskId)
  {
  }

  /** Two single downloads whose listings start with the same visible name
      record the same result path, whatever their modes and scratch
      directories: for example two video jobs of one media id, each saved as
      `<id>.<ext>` and moved to the storage root. */
  lemma SameFirstFileSameResult(mode1: string, mode2: string, scratch1: string, scratch2: string,
                                files1: seq<string>, files2: seq<string>)
    requires mode1 != "playlist" && mode2 != "playlist"
    requires Visible(files1) != [] && Visible(files2) != [] && Visible(files1)[0] == Visible(files2)[0]
    ensures RunPipeline(mode1, scratch1, Fetched(files1)).Done?
    ensures RunPipeline(mode1, scratch1, Fetched(files1)) == RunPipeline(mode2, scratch2, Fetched(files2))
  {
  }

  /** When two completed tasks record one path, serving either removes the
      file the other still points to, even with the corrected cleanup. */
  lemma SharedResultRemovedWithEither(st: State, taskId: string, otherId: string)
    requires taskId in st.tasks && otherId in st.tasks && st.tasks[taskId].status == Completed
    requires st.tasks[taskId].result.Some? && st.tasks[otherId].result == st.tasks[taskId].result
    ensures RemoveFile(st.tasks[otherId].result.value) in RetrieveEffects(st, taskId)
  {
  }
}

=== FILE: jobs.dfy ===
/** The asynchronous job subsystem of app.py: the task table, the FIFO queue of
    task ids, and the four operations on them (submit, status, retrieve, and
    one step of the background worker), each a pure transition on one
    immutable state value. */
module Jobs {
  import opened Optional
  import opened Text
  import opened Classifier
  import opened FetchPlan
  import opened Cleanup

  /** A task's lifecycle: pending, then processing, then completed or failed. */
  datatype Status = Pending | Processing | Completed | Failed

  /** One task record, keyed by its id in the task table. */
  datatype Task = Task(
    id: string,
    url: string,
    mode: string,
    formatId: Option<string>,
    submode: string,
    status: Status,
    result: Option<string>,
    error: Option<string>)

  /** The task table and the queue of ids waiting for the worker. */
  datatype State = State(tasks: map<string, Task>, queue: seq<string>)

  const Empty: State := State(map[], [])

  /** The storage root: `~/Downloads/YouTube Downloader`, with the home
      directory left symbolic. */
  const DownloadFolder: string := "~/Downloads/YouTube Downloader"

  /** The JSON body of a submission; `None` is a missing key. */
  datatype DownloadRequest = DownloadRequest(
    url: Option<string>,
    mode: Option<string>,
    formatId: Option<string>,
    submode: Option<string>)

  /** Response bodies of the job endpoints. */
  datatype Body =
    | TaskCreated(taskId: string)
    | TaskStatus(status: Status, error: Option<string>)
    | Attachment(path: string, downloadName: string)
    | ErrorMessage(message: string)

  datatype Reply = Reply(code: int, body: Body)

  /** The state after an endpoint ran, and what it answered. */
  datatype Outcome = Outcome(state: State, reply: Reply)

  /** What the media fetcher (with the archive or move that follows it)
      reported: an exception text, or the directory listing of the scratch
      directory afterwards. */
  datatype FetchOutcome = FetchFailed(message: string) | Fetched(files: seq<string>)

  /** The pipeline's verdict before classification: a result path or the raw
      exception text. */
  datatype RunResult = Done(path: string) | Error(message: string)

  /** The archive a collection job produces from scratch directory `scratch`:
      `make_archive` appends ".zip" to the joined base, which is the storage
      root joined with the archive's whole file name. */
  function ArchivePath(scratch: string): (r: string)
    ensures r == JoinPath(DownloadFolder, "playlist-" + scratch + ".zip")
  {
    var name := "playlist-" + scratch;
    assert JoinPath(DownloadFolder, name) == DownloadFolder + "/" + name;
    assert JoinPath(DownloadFolder, name + ".zip") == DownloadFolder + "/" + (name + ".zip");
    JoinPath(DownloadFolder, name) + ".zip"
  }

  /** `/download`: a truthy url creates a pending task under the fresh id
      `newId` and queues it; anything else is rejected with 400. */
  function Submit(st: State, req: DownloadRequest, newId: string): (out: Outcome)
    requires newId !in st.tasks
    ensures !Truthy(req.url) ==> out == Outcome(st, Reply(400, ErrorMessage("missing url")))
    ensures Truthy(req.url) ==>
              && out.reply == Reply(200, TaskCreated(newId))
              && out.state.queue == st.queue + [newId]
              && out.state.tasks.Keys == st.tasks.Keys + {newId}
              && (forall id :: id in st.tasks ==> out.state.tasks[id] == st.tasks[id])
    ensures Truthy(req.url) ==>
              var t := out.state.tasks[newId];
              && t.id == newId && t.url == req.url.value
              && t.mode == req.mode.GetOr("video") && t.submode == req.submode.GetOr("video")
              && t.formatId == req.formatId
              && t.status == Pending && t.result == None && t.error == None
  {
    if !Truthy(req.url) then
      Outcome(st, Reply(400, ErrorMessage("missing url")))
    else
      var t := Task(newId, req.url.value, req.mode.GetOr("video"), req.formatId,
                    req.submode.GetOr("video"), Pending, None, None);
      Outcome(State(st.tasks[newId := t], st.queue + [newId]), Reply(200, TaskCreated(newId)))
  }

  /** `/status/<id>`: a pure read of the task's status and error. */
  function StatusOf(st: State, taskId: string): (r: Reply)
    ensures taskId !in st.tasks <==> r.code == 404
    ensures taskId !in st.tasks ==> r.body == ErrorMessage("task not found")
    ensures taskId in st.tasks ==>
              r == Reply(200, TaskStatus(st.tasks[taskId].status, st.tasks[taskId].error))
  {
    if taskId !in st.tasks then Reply(404, ErrorMessage("task not found"))
    else
      var t := st.tasks[taskId];
      Reply(200, TaskStatus(t.status, t.error))
  }

  /** `/file/<id>`: only a completed task is served, as an attachment named by
      the result's base name; the cleanup after the response then deletes the
      task record. A completed task without a result path (impossible in a
      valid state) makes `basename(None)` raise, which Flask turns into 500. */
  function Retrieve(st: State, taskId: string): (out: Outcome)
    ensures taskId !in st.tasks || st.tasks[taskId].status != Completed
            ==> out == Outcome(st, Reply(404, ErrorMessage("file not available")))
    ensures out.reply.code == 200 <==> taskId in st.tasks && st.tasks[taskId].status == Completed
                                        && st.tasks[taskId].result.Some?
    ensures out.reply.code == 200 ==>
              var p := st.tasks[taskId].result.value;
              && out.reply.body == Attachment(p, Basename(p))
              && out.state == State(st.tasks - {taskId}, st.queue)
    ensures out.reply.code != 200 ==> out.state == st
  {
    if taskId !in st.tasks || st.tasks[taskId].status != Completed then
      Outcome(st, Reply(404, ErrorMessage("file not available")))
    else
      match st.tasks[taskId].result
      case None => Outcome(st, Reply(500, ErrorMessage("internal server error")))
      case Some(p) =>
        Outcome(State(st.tasks - {taskId}, st.queue), Reply(200, Attachment(p, Basename(p))))
  }

  /** The files the corrected cleanup after a retrieval removes: the served
      file and nothing else, and nothing at all when nothing was served. (As
      written, the cleanup removes the storage root too after an archive; see
      `Cleanup.CleanupAsWritten`.) */
  function RetrieveEffects(st: State, taskId: string): (effects: seq<FileEffect>)
    ensures Retrieve(st, taskId).reply.code != 200 ==> effects == []
    ensures Retrieve(st, taskId).reply.code == 200 ==>
              effects == CleanupCorrected(Retrieve(st, taskId).reply.body.path)
  {
    if taskId in st.tasks && st.tasks[taskId].status == Completed && st.tasks[taskId].result.Some? then
      CleanupCorrected(st.tasks[taskId].result.value)
    else []
  }

  /** What the worker's pipeline yields for a task of mode `mode`, given the
      name of its scratch directory and the fetch outcome. */
  function RunPipeline(mode: string, scratch: string, fetch: FetchOutcome): (r: RunResult)
    ensures fetch.FetchFailed? ==> r == Error(fetch.message)
    ensures fetch.Fetched? && mode == "playlist" ==> r == Done(ArchivePath(scratch))
    ensures fetch.Fetched? && mode != "playlist" ==>
              if Visible(fetch.files) == [] then r == Error("no file produced")
              else r.Done? && r.path == JoinPath(DownloadFolder, Visible(fetch.files)[0])
  {
    match fetch
    case FetchFailed(msg) => Error(msg)
    case Fetched(files) =>
      if mode == "playlist" then Done(ArchivePath(scratch))
      else
        var produced := Visible(files);
        if produced == [] then Error("no file produced")
        else Done(JoinPath(DownloadFolder, produced[0]))
  }

  /** The task after the worker finished it: completed with a result path, or
      failed with the classified error. */
  function Resolve(t: Task, run: RunResult): (t': Task)
    ensures t'.status == Completed || t'.status == Failed
    ensures t'.status == Completed <==> run.Done?
    ensures t'.id == t.id && t'.url == t.url && t'.mode == t.mode
            && t'.formatId == t.formatId && t'.submode == t.submode
    ensures run.Done? ==> t'.result == Some(run.path) && t'.error == t.error
    ensures run.Error? ==> t'.error == Some(SimpleError(run.message)) && t'.result == t.result
  {
    var claimed := t.(status := Processing);
    match run
    case Done(p) => claimed.(status := Completed, result := Some(p))
    case Error(m) => claimed.(status := Failed, error := Some(SimpleError(m)))
  }

  /** One iteration of the worker loop: take the queue head, run its pipeline
      and record the outcome. `fetch` is what the fetcher reported when run
      with `WorkerOptions(st, scratch)`. The queue's `get` blocks while the queue is
      empty, and a head missing from the table raises outside the loop's
      error handling, so both are preconditions of a step. */
  function WorkerStep(st: State, scratch: string, fetch: FetchOutcome): (st': State)
    requires |st.queue| > 0 && st.queue[0] in st.tasks
    ensures st'.queue == st.queue[1..]
    ensures st'.tasks.Keys == st.tasks.Keys
    ensures forall id :: id in st.tasks && id != st.queue[0] ==> st'.tasks[id] == st.tasks[id]
    ensures var t := st.tasks[st.queue[0]];
            st'.tasks[st.queue[0]] == Resolve(t, RunPipeline(t.mode, scratch, fetch))
  {
    var id := st.queue[0];
    var t := st.tasks[id];
    State(st.tasks[id := Resolve(t, RunPipeline(t.mode, scratch, fetch))], st.queue[1..])
  }

  /** The options the worker hands the fetcher for the task at the queue
      head, whose scratch directory `scratch` lies in the storage root: the
      task's mode, submode and format selector decide them, and every output
      file lands in the scratch directory. */
  function WorkerOptions(st: State, scratch: string): (o: FetchOptions)
    requires |st.queue| > 0 && st.queue[0] in st.tasks
    ensures var t := st.tasks[st.queue[0]];
            && o.outputTemplate == JoinPath(JoinPath(DownloadFolder, scratch),
                                            if t.mode == "playlist" then CollectionTemplate else SingleTemplate)
            && (BranchOf(t.mode) == SingleVideo
                ==> o.format == (if Truthy(t.formatId) then t.formatId.value else DefaultVideoFormat))
            && (o.postprocessors != [] <==> t.mode == "audio" || (t.mode == "playlist" && t.submode == "audio"))
  {
    var t := st.tasks[st.queue[0]];
    SelectOptions(t.mode, t.submode, t.formatId, JoinPath(DownloadFolder, scratch))
  }

  /** A single download's result is named after the first file the listing
      shows that is not hidden. */
  lemma SingleResultNamedAfterFirstFile(mode: string, scratch: string, files: seq<string>)
    requires mode != "playlist"
    requires forall f :: f in files ==> '/' !in f
    ensures var r := RunPipeline(mode, scratch, Fetched(files));
            r.Done? <==> exists f :: f in files && !Hidden(f)
    ensures var r := RunPipeline(mode, scratch, Fetched(files));
            r.Done? ==> Basename(r.path) == Visible(files)[0]
  {
    var produced := Visible(files);
    if produced != [] {
      assert produced[0] in files;
      BasenameOfJoin(DownloadFolder, produced[0]);
    } else {
      forall f | f in files
        ensures Hidden(f)
      {
        var i :| 0 <= i < |files| && files[i] == f;
      }
    }
  }

  /** A collection's archive is named after its scratch directory. */
  lemma ArchiveNamedAfterScratch(scratch: string)
    requires '/' !in scratch
    ensures Basename(ArchivePath(scratch)) == "playlist-" + scratch + ".zip"
  {
    ArchiveName(scratch);
    BasenameOfJoin(DownloadFolder, "playlist-" + scratch + ".zip");
  }

  /** Every result the worker records lies directly in the storage root. */
  lemma ResultsLiveInStorageRoot(mode: string, scratch: string, fetch: FetchOutcome)
    requires '/' !in scratch
    requires fetch.Fetched? ==> forall f :: f in fetch.files ==> '/' !in f
    ensures var r := RunPipeline(mode, scratch, fetch);
            r.Done? ==> DirName(r.path) == DownloadFolder
  {
    var r := RunPipeline(mode, scratch, fetch);
    if r.Done? {
      if mode == "playlist" {
        var name := "playlist-" + scratch + ".zip";
        ArchiveName(scratch);
        DirNameOfJoin(DownloadFolder, name);
      } else {
        assert Visible(fetch.files)[0] in fetch.files;
        DirNameOfJoin(DownloadFolder, Visible(fetch.files)[0]);
      }
    }
  }

  /** The archive's file name carries no '/' and ends in ".zip". */
  lemma ArchiveName(scratch: string)
    requires '/' !in scratch
    ensures var name := "playlist-" + scratch + ".zip";
            '/' !in name && EndsWith(name, ".zip")
  {
    var name := "playlist-" + scratch + ".zip";
    assert forall i :: 0 <= i < |name| ==>
             name[i] == (if i < 9 then "playlist-"[i] else if i < 9 + |scratch| then scratch[i - 9]
                         else ".zip"[i - 9 - |scratch|]);
  }
}

=== FILE: optional.dfy ===
/** Optional values. `None` stands for Python's `None`, which is also what
    `dict.get` yields for a missing key. */
module Optional {

  datatype Option<+T> = None | Some(value: T) {

    /** The wrapped value, or `default` when there is none. */
    function GetOr(default: T): T {
      match this
      case Some(v) => v
      case None => default
    }
  }
}

=== FILE: text.dfy ===
/** Strings and file names as the downloader treats them: Python's substring
    test `pat in s`, the hidden-file test `name.startswith('.')`, and the two
    `os.path` helpers the job pipeline relies on (`join` and `basename`). */
module Text {
  import opened Optional

  /** Python truthiness of an optional string: present and not empty. */
  predicate Truthy(s: Option<string>) {
    s.Some? && s.value != ""
  }

  /** `pat` occurs in `s` starting at index `i`. */
  predicate OccursAt(s: string, pat: string, i: int) {
    0 <= i && i + |pat| <= |s| && s[i..i + |pat|] == pat
  }

  /** Python's `pat in s` on strings, scanning left to right. */
  function Contains(s: string, pat: string): (r: bool)
    ensures |pat| == 0 ==> r
    ensures r ==> |pat| <= |s|
    decreases |s|
  {
    if |pat| > |s| then false
    else if s[..|pat|] == pat then true
    else Contains(s[1..], pat)
  }

  /** The scan finds `pat` exactly when it occurs somewhere in `s`. */
  lemma {:induction false} ContainsIff(s: string, pat: string)
    ensures Contains(s, pat) <==> exists i :: OccursAt(s, pat, i)
    decreases |s|
  {
    if |pat| <= |s| {
      if s[..|pat|] == pat {
        assert OccursAt(s, pat, 0);
      } else {
        ShiftOccurrence(s, pat);
        ContainsIff(s[1..], pat);
      }
    }
  }

  /** An occurrence that does not start at index 0 is an occurrence in the tail. */
  lemma ShiftOccurrence(s: string, pat: string)
    requires |s| > 0 && !OccursAt(s, pat, 0)
    ensures (exists i :: OccursAt(s, pat, i)) <==> (exists j :: OccursAt(s[1..], pat, j))
  {
    forall i | OccursAt(s, pat, i)
      ensures OccursAt(s[1..], pat, i - 1)
    {
      assert s[1..][i - 1..i - 1 + |pat|] == s[i..i + |pat|];
    }
    forall j | OccursAt(s[1..], pat, j)
      ensures OccursAt(s, pat, j + 1)
    {
      assert s[1..][j..j + |pat|] == s[j + 1..j + 1 + |pat|];
    }
  }

  /** A pattern with a character the text lacks does not occur in it. */
  lemma AbsentCharNoOccurrence(s: string, pat: string, k: int)
    requires 0 <= k < |pat| && pat[k] !in s
    ensures !Contains(s, pat)
  {
    ContainsIff(s, pat);
  }

  /** Python's `name.startswith('.')`: the name of a hidden file. */
  predicate Hidden(name: string)
    ensures Hidden(name) <==> "." <= name
  {
    |name| > 0 && name[0] == '.'
  }

  /** `[f for f in names if not f.startswith('.')]`: the produced files. */
  function Visible(names: seq<string>): (r: seq<string>)
    ensures |r| <= |names|
    ensures forall k :: 0 <= k < |r| ==> !Hidden(r[k]) && r[k] in names
    ensures forall i :: 0 <= i < |names| && !Hidden(names[i]) ==> names[i] in r
  {
    if names == [] then []
    else if Hidden(names[0]) then Visible(names[1..])
    else [names[0]] + Visible(names[1..])
  }

  /** The filter keeps the listing order: filtering a concatenation is
      concatenating the filtered parts. */
  lemma {:induction false} VisibleAppend(a: seq<string>, b: seq<string>)
    ensures Visible(a + b) == Visible(a) + Visible(b)
    decreases |a|
  {
    if a == [] {
      assert a + b == b;
    } else {
      assert (a + b)[1..] == a[1..] + b;
      VisibleAppend(a[1..], b);
    }
  }

  /** The first produced file is the first listed name that is not hidden. */
  lemma {:induction false} VisibleFirst(names: seq<string>)
    requires Visible(names) != []
    ensures exists i :: 0 <= i < |names| && names[i] == Visible(names)[0]
                        && forall j :: 0 <= j < i ==> Hidden(names[j])
    decreases |names|
  {
    if Hidden(names[0]) {
      VisibleFirst(names[1..]);
      var i :| 0 <= i < |names[1..]| && names[1..][i] == Visible(names[1..])[0]
               && forall j :: 0 <= j < i ==> Hidden(names[1..][j]);
      assert names[i + 1] == Visible(names)[0];
      forall j | 0 <= j < i + 1
        ensures Hidden(names[j])
      {
        if j > 0 {
          assert names[j] == names[1..][j - 1];
        }
      }
    } else {
      assert names[0] == Visible(names)[0];
    }
  }

  /** Python's `os.path.join(dir, name)` for two components. */
  function JoinPath(dir: string, name: string): (r: string)
    ensures |name| > 0 && name[0] == '/' ==> r == name
    ensures |name| <= |r| && r[|r| - |name|..] == name
    ensures !(|name| > 0 && name[0] == '/') ==> |dir| <= |r| && r[..|dir|] == dir
    ensures |r| <= |dir| + 1 + |name|
    ensures !(|name| > 0 && name[0] == '/') ==>
              (|r| == |dir| + 1 + |name| <==> dir != [] && dir[|dir| - 1] != '/')
    ensures |r| == |dir| + 1 + |name| ==> r[|dir|] == '/'
    ensures !(|name| > 0 && name[0] == '/') ==> |dir| + |name| <= |r|
  {
    if |name| > 0 && name[0] == '/' then name
    else if dir == [] || dir[|dir| - 1] == '/' then dir + name
    else dir + "/" + name
  }

  /** Python's `os.path.basename(p)`: everything after the last '/'. */
  function Basename(p: string): (r: string)
    ensures '/' !in r && |r| <= |p|
  {
    if p == [] then []
    else if p[|p| - 1] == '/' then []
    else Basename(p[..|p| - 1]) + [p[|p| - 1]]
  }

  /** The base name is the part of the path after its last '/': a suffix of
      the path, preceded by '/' unless it is the whole path. */
  lemma {:induction false} BasenameIsLastComponent(p: string)
    ensures var r := Basename(p);
            && r == p[|p| - |r|..]
            && (|r| == |p| || p[|p| - |r| - 1] == '/')
    decreases |p|
  {
    if p != [] && p[|p| - 1] != '/' {
      var q := p[..|p| - 1];
      BasenameIsLastComponent(q);
      var r := Basename(p);
      assert r == Basename(q) + [p[|p| - 1]];
      assert q[|q| - |Basename(q)|..] + [p[|p| - 1]] == p[|p| - |r|..];
    }
  }

  /** Appending a '/'-free suffix appends it to the base name. */
  lemma {:induction false} BasenameAppend(p: string, s: string)
    requires '/' !in s
    ensures Basename(p + s) == Basename(p) + s
    decreases |s|
  {
    if s == [] {
      assert p + s == p;
    } else {
      var s', c := s[..|s| - 1], s[|s| - 1];
      assert s == s' + [c];
      assert c in s && '/' !in s';
      var ps := p + s;
      assert ps[|ps| - 1] == c && ps[..|ps| - 1] == p + s';
      BasenameAppend(p, s');
      assert Basename(ps) == Basename(p + s') + [c];
    }
  }

  /** The base name of `join(dir, name)` is `name` itself, for a plain file name. */
  lemma BasenameOfJoin(dir: string, name: string)
    requires '/' !in name
    ensures Basename(JoinPath(dir, name)) == name
  {
    if dir == [] || dir[|dir| - 1] == '/' {
      BasenameAppend(dir, name);
      if dir == [] {
        assert Basename(dir) == [];
      }
    } else {
      BasenameAppend(dir + "/", name);
      assert dir + "/" + name == (dir + "/") + name;
    }
  }
}
